=== FILE: README.md ===
# useSession: the session lifecycle of nuxt-auth, in Dafny

This project models the `useSession` composable of nuxt-auth
(`dist/runtime/composables/useSession.mjs`). The composable coordinates a
client's authentication session against an auth service. It provides five
actions and a facade:

- `getProviders` reads the provider registry.
- `getCsrfToken` fetches an anti-forgery token, forwarding the ambient cookie
  header when there is one.
- `signIn(provider, options, authorizationParams)` picks a provider and POSTs
  the sign-in request with a fresh CSRF token. It then either navigates, or
  refreshes the session and returns a result record.
- `getSession(options)` fetches the session and, through its request and
  response hooks, updates three shared cells: `data`, `loading` and
  `lastRefreshedAt`. When a session is `required` and none is present, it calls
  `onUnauthenticated`, whose built-in default is `signIn(undefined, { callbackUrl })`.
- `signOut(options)` refuses to proceed without a CSRF token, POSTs the
  sign-out request, and then navigates or refreshes the session.
- The default export exposes the actions and read-only views of the cells.

## Layout

- `js_values.dfy` (module `JsValues`): the JavaScript values the code handles,
  and the operations it uses on them. These are truthiness, `??`, `||`, and
  property reads, which throw a TypeError on `null` or `undefined`.
- `protocol.dfy` (module `SessionProtocol`): each flow as a pure function from
  its inputs and its starting store to a `Run`. A `Run` is the ordered trace of
  effects, the outcome and the final store. The inputs are the collaborators
  (`Env`), the answer of every transport request (`Replies`) and the store.
  - The outcome is `Navigated`, `SignedIn`, `Returned` or `Raised`.
  - Effects are the fetches of providers, the CSRF token and the session; POSTs;
    writes of `data`; the `onUnauthenticated` call; and navigation.
  - Each pure decision of the code is a function of its own: the action, the
    POST bodies, the stored session, the forwarded headers and the result record.
- `client.dfy` (module `UseSession`): class `SessionClient`.
  - Its fields are the shared cells, plus a ghost log of effects.
  - Each action is a method that assigns the cells step by step, as the hooks do.
  - Each method is proved to perform exactly the run of its protocol function:
    the same outcome, the same final cells, and the same events appended to the log.
  - `signIn`, `signOut` and `getSession` are split into methods along their awaited steps.
- `properties.dfy` (module `SessionProperties`): what the flows guarantee,
  proved about the runs. Through the methods' postconditions, this also holds
  of the class.

In these places the model follows the code where a reader might expect
otherwise:

- A transport error during `getSession` is not swallowed. The error hooks only
  clear `loading`, and the promise rejects, so the model raises it. Sign-in and
  sign-out pass that rejection on when they refresh the session.
- In return mode, `url: error ? null : data.url` tests truthiness. An `error`
  query parameter that is present but empty keeps the url.
- A failed POST whose error carries no payload makes `data.url` throw a
  TypeError. The model raises it; it does not assume it away.
- `signIn`'s `callbackUrl` replaces only an `undefined` option, not `null`.
  `getSession` and `signOut` fall back on any falsy value where the code uses `||`.
- A rejected provider fetch in `signIn`, and a rejected CSRF fetch in `signIn`
  or `signOut`, are not caught: the flow raises the transport error. Only the
  two POSTs substitute `error.data` for the response.

## Model

| member | source | states |
|---|---|---|
| JsValues.Prop | dist/runtime/composables/useSession.mjs:55 | reading `v.key` throws a TypeError exactly when `v` is `null` or `undefined`; otherwise it yields the field, or `undefined` when there is none |
| SessionProtocol.ForwardedHeaders | dist/runtime/composables/useSession.mjs:10-14 | the request headers hold `cookie` exactly when the ambient cookie is present and non-empty, with that value, and hold nothing else |
| SessionProtocol.Action | dist/runtime/composables/useSession.mjs:36-42 | the action is `callback` exactly for a `credentials` provider and `signin` for every other type |
| SessionProtocol.SignInBody | dist/runtime/composables/useSession.mjs:47-52 | the body has the caller's keys plus `csrfToken`, `callbackUrl` and `json`; those three carry the protocol values and every other key keeps the caller's value |
| SessionProtocol.StoredSession | dist/runtime/composables/useSession.mjs:89 | the payload is stored exactly when it is a non-empty object, unchanged; otherwise `null` is stored |
| UseSession.SessionClient.CurrentStatus | dist/runtime/composables/useSession.mjs:145-146 | the exposed status is `authenticated` only with a session and `unauthenticated` only without one |
| UseSession.SessionClient.GetCsrfToken | dist/runtime/composables/useSession.mjs:9-16 | forwards the cookie header when present, logs one CSRF fetch, and yields the response's `csrfToken`, the transport error, or a TypeError for a `null` response |
| UseSession.SessionClient.GetProviders | dist/runtime/composables/useSession.mjs:67 | logs one provider fetch and yields the registry or the transport error |
| UseSession.SessionClient.SignIn | dist/runtime/composables/useSession.mjs:17-25 | performs `SignInRun`: same outcome, same cells, and its trace appended to the log |
| UseSession.SessionClient.Choose | dist/runtime/composables/useSession.mjs:26-35 | performs `ChooseProvider`: the provider-selection page for a missing or unknown provider, else the submission |
| UseSession.SessionClient.Submit | dist/runtime/composables/useSession.mjs:36-43 | performs `SubmitSignIn`: the CSRF fetch, whose failure is raised, then the POST step |
| UseSession.SessionClient.Send | dist/runtime/composables/useSession.mjs:44-53 | performs `PostSignIn`: logs the POST to `<action>/<id>` with the merged body, then handles the answer (the error payload on failure) |
| UseSession.SessionClient.Answer | dist/runtime/composables/useSession.mjs:54-65 | performs `AnswerSignIn`: navigate, or parse the url, refresh the session and return the result record |
| UseSession.SessionClient.GetSession | dist/runtime/composables/useSession.mjs:68-106 | performs `GetSessionRun`: stamps `lastRefreshedAt`, logs the request with its `callbackUrl` and headers, then `onResponse` or the error hook |
| UseSession.SessionClient.OnResponse | dist/runtime/composables/useSession.mjs:87-95 | performs `SessionResponse`: writes `data`, clears `loading`, then calls `onUnauthenticated` when required and unauthenticated |
| UseSession.SessionClient.SignOut | dist/runtime/composables/useSession.mjs:108-113 | performs `SignOutRun`: the CSRF fetch, and the 400 error when the token is falsy |
| UseSession.SessionClient.Leave | dist/runtime/composables/useSession.mjs:114-131 | performs `PostSignOut`: the sign-out POST, then navigation or a session refresh returning the payload |
| SessionProperties.SignInWithoutProviders | dist/runtime/composables/useSession.mjs:21-25 | with a falsy registry, sign-in fetches the providers and navigates to the API `error` URL, with no CSRF fetch or POST and the store untouched |
| SessionProperties.SignInWithoutKnownProvider | dist/runtime/composables/useSession.mjs:26-35 | with no, an empty or an unknown provider id, sign-in navigates to the `signin` page with `callbackUrl` in its query, and does nothing else |
| SessionProperties.SignInWithoutCsrf | dist/runtime/composables/useSession.mjs:43 | with a selected provider but no CSRF token object, sign-in raises after the token fetch (the transport error, or a TypeError for a `null` response) with no POST and the store untouched |
| SessionProperties.SignInThroughPost | dist/runtime/composables/useSession.mjs:36-53 | with a known provider and a token, sign-in is the provider fetch, the CSRF fetch and the POST, followed by the handling of the POST's answer |
| SessionProperties.SignInRequest | dist/runtime/composables/useSession.mjs:36-53 | the POST goes to `callback/<id>` for credentials and to `signin/<id>` otherwise, after the CSRF fetch, carrying the caller's options overridden by the token, `callbackUrl` and `json: true` |
| SessionProperties.SignInCallbackUrl | dist/runtime/composables/useSession.mjs:26 | the sign-in POST body's `callbackUrl` is the current request URL when the caller leaves the option out or `undefined`, and the caller's value otherwise |
| SessionProperties.SignInRedirect | dist/runtime/composables/useSession.mjs:53-57 | sign-in navigates iff `redirect` is truthy or the type is neither credentials nor email; the target is `url ?? callbackUrl`; a null response raises a TypeError |
| SessionProperties.SignInReturnMode | dist/runtime/composables/useSession.mjs:58-65 | in return mode: an unparsable url throws before any refresh; otherwise the session is refreshed first; the result has `ok`, status 200, and the `error`; `url` is null when `error` is set and is the response url otherwise |
| SessionProperties.DefaultRefresh | dist/runtime/composables/useSession.mjs:68-106 | `getSession()` without options is one session fetch with the current URL, then one write of `data`; it raises the transport error on failure |
| SessionProperties.GetSessionResponse | dist/runtime/composables/useSession.mjs:86-101 | on a response: the request carries `callbackUrl` (the caller's or the current URL); the store holds the stored session, `loading` false and the request time; `onUnauthenticated` runs iff `required` and no session was stored, right after the write; with the built-in handler the rest of the trace is exactly the fallback `signIn(undefined, { callbackUrl })` and the payload is returned unless that sign-in raised; otherwise nothing follows the handler call and the payload is returned |
| SessionProperties.RequiredWithoutSession | dist/runtime/composables/useSession.mjs:70-95 | `getSession({ required: true })` without a session and with the built-in handler: the session fetch, one write of `null`, one handler call, the provider fetch and one navigation to the selection page carrying the caller's `callbackUrl`, else the current URL (or the error page); it resolves to the payload, and raises only a rejected provider fetch |
| SessionProperties.DefaultHandler | dist/runtime/composables/useSession.mjs:70-76 | the built-in `onUnauthenticated` fetches the providers and navigates to the selection page with the `callbackUrl` it is given (or to the error page), never POSTs, and keeps the store |
| SessionProperties.GetSessionError | dist/runtime/composables/useSession.mjs:96-104 | on a transport error only `loading` is cleared beside the request stamp; `data` is untouched and the error is raised |
| SessionProperties.StatusTracksData | dist/runtime/composables/useSession.mjs:89-91 | after a response, the status is `authenticated` iff `data` is set iff the payload was a non-empty object |
| SessionProperties.SignOutWithoutCsrf | dist/runtime/composables/useSession.mjs:108-113 | without a truthy token, sign-out throws (the 400 error for a falsy token) after the CSRF fetch alone: no POST and the store untouched |
| SessionProperties.SignOutFlow | dist/runtime/composables/useSession.mjs:114-131 | the POST body is `{ csrfToken, callbackUrl or current URL, json: "true" }`; with `redirect` it navigates to `url ?? callbackUrl`; otherwise it refreshes the session and returns the (error) payload |
| SessionProperties.AnswerSignInOrdering | dist/runtime/composables/useSession.mjs:54-65 | sign-in's handling of the POST answer is well ordered, never POSTs, and changes the store only through a session fetch |
| SessionProperties.SubmitSignInOrdering | dist/runtime/composables/useSession.mjs:43-65 | sign-in with a selected provider opens with the CSRF fetch and is well ordered |
| SessionProperties.SignInOrdering | dist/runtime/composables/useSession.mjs:17-66 | for all inputs, sign-in fetches providers first, POSTs only after a CSRF fetch and with a `csrfToken` key in the body, navigates only as its last effect, and changes the store only through a session fetch |
| SessionProperties.SessionResponseOrdering | dist/runtime/composables/useSession.mjs:87-95 | `onResponse` opens with the write of `data`, never POSTs, calls `onUnauthenticated` only right after writing `null`, and the built-in handler navigates only last |
| SessionProperties.GetSessionOrdering | dist/runtime/composables/useSession.mjs:68-107 | for all inputs and options, `getSession` fetches the session, never POSTs, calls `onUnauthenticated` only right after writing `null`, and navigates only last |
| SessionProperties.PostSignOutOrdering | dist/runtime/composables/useSession.mjs:114-131 | after the sign-out POST the flow is well ordered, never POSTs again, and changes the store only through a session fetch |
| SessionProperties.SignOutOrdering | dist/runtime/composables/useSession.mjs:108-131 | for all inputs, sign-out opens with the CSRF fetch, POSTs only after it and with a `csrfToken` key in the body, navigates only last, and changes the store only through a session fetch |
| SessionProperties.SignInSendsToken | dist/runtime/composables/useSession.mjs:43-52 | every sign-in POST's `csrfToken` is the value fetched from the CSRF endpoint (possibly `undefined`), and sign-in POSTs nothing when that fetch fails or answers `null` |
| SessionProperties.PostedTokenIsFetched | dist/runtime/composables/useSession.mjs:43-52 | with a selected provider and a CSRF response object, the one sign-in POST carries that response's `csrfToken` and nothing after it POSTs |
| SessionProperties.SignOutSendsToken | dist/runtime/composables/useSession.mjs:108-120 | every sign-out POST's `csrfToken` is the fetched token, and sign-out POSTs nothing unless that token is truthy |

## Left out

- The transport `_fetch` is not part of this model. Each request's answer is an
  input of the flow (`Replies`): a payload or a rejection carrying `error.data`.
  Each endpoint is answered at most once per flow.
- `joinPathToApiURL`, `URLSearchParams` encoding and
  `new URL(...).searchParams.get("error")` are abstract functions in `Env`; their
  code is not part of this model. So are `getRequestURL` (one value per flow),
  `useRequestHeaders` (an optional cookie) and `new Date()` (a clock reading).
- `SessionProtocol.Env.parseUrl` is not required to reject a url that is not a
  string. `new URL(data.url)` throws for `null` and `undefined`, but an `Env` may
  parse them, and return mode then yields a `null` url without an `error`.
- `navigateTo`, `callWithNuxt` and `useNuxtApp` are not part of this model.
  Navigation is a terminal event in the log.
- `useSessionState.mjs` is not part of this model. `SessionProtocol.StatusOf`
  derives the status from the cells as an assumption, not a verified fact:
  `loading` gives loading, no data gives unauthenticated, otherwise authenticated.
- `checkSessionResult.mjs` is not part of this model. `isNonEmptyObject` is
  taken to mean an object with at least one own field.
- `defu` is modelled only for the three keys `getSession` reads. A caller's
  `onUnauthenticated` is an opaque `Custom` handler: its call is logged, but
  its effects and its promise are not modelled.
- Property reads on strings, numbers and arrays yield `undefined` in the model.
  JavaScript would return indexed characters, elements or built-in members there.
- `JsValues.Member` sees only an object's own fields. Members every object
  inherits from `Object.prototype` (`toString`, `constructor`, `hasOwnProperty`,
  …) are not modelled. So `signIn("toString")` goes to the provider-selection
  page in the model, while the code finds a truthy provider and POSTs to
  `signin/toString`.
- JavaScript numbers are integers in the model (`Num(n: int)`): NaN, fractions
  and infinities are not represented. The flows only test numbers for
  truthiness, and that is the only place this shows.
- `SessionProtocol.GetSessionRun`: a `Failed` session reply stands for a failure
  in which `onResponse` did not run, such as a request that never got an answer.
  A transport that runs `onResponse` on an error-status response before
  `onResponseError` would write `data` (and possibly call `onUnauthenticated`)
  before rejecting. The model does not capture that case, so
  `SessionProperties.GetSessionError`'s "data is untouched" holds only for
  failures without `onResponse`.
- Vue reactivity and `readonly` are not modelled. The facade is the class's
  fields, which its methods alone assign.
- Concurrent, interleaved calls of the flows are not modelled. Each flow runs
  alone from start to finish.

=== FILE: client.dfy ===
/**
 * The `useSession` composable as a stateful client: the shared session cells
 * (`data`, `loading`, `lastRefreshedAt`) are fields that the flows assign,
 * and a ghost log records every observable effect in order. Each flow is
 * proved to perform exactly the run that module SessionProtocol defines for
 * it, so the properties proved there hold of these methods.
 */
module UseSession {
  import opened JsValues
  import opened SessionProtocol

  class SessionClient {
    var data: Option<Value>
    var loading: bool
    var lastRefreshedAt: Option<Time>
    ghost var log: seq<Event>

    /** The cells as one value. */
    function Snapshot(): Store
      reads this
    {
      Store(data, loading, lastRefreshedAt)
    }

    /** The `status` getter of the facade. */
    function CurrentStatus(): (status: SessionStatus)
      reads this
      ensures status == Authenticated ==> data.Some?
      ensures status == Unauthenticated ==> data.None?
    {
      StatusOf(Snapshot())
    }

    /** The flow performed `run`: it returned its outcome, left its store and appended its trace to the log. */
    twostate predicate Performed(run: Run, outcome: Outcome)
      reads this
    {
      outcome == run.outcome && data == run.store.data && loading == run.store.loading && lastRefreshedAt == run.store.lastRefreshedAt && log == old(log) + run.trace
    }

    constructor (initial: Store)
      ensures Snapshot() == initial && log == []
    {
      data, loading, lastRefreshedAt := initial.data, initial.loading, initial.lastRefreshedAt;
      log := [];
    }

    /** `getCsrfToken()` */
    method GetCsrfToken(env: Env, reply: Reply) returns (token: Result<Value, Thrown>)
      modifies this`log
      ensures token == CsrfToken(reply)
      ensures log == old(log) + [FetchCsrf(ForwardedHeaders(env.cookie))]
    {
      var headers := ForwardedHeaders(env.cookie);
      log := log + [FetchCsrf(headers)];
      match reply {
        case Failed(e) => token := Err(FetchError(e));
        case Delivered(response) => token := Prop(response, "csrfToken");
      }
    }

    /** `getProviders()` */
    method GetProviders(reply: Reply) returns (registry: Result<Value, Thrown>)
      modifies this`log
      ensures reply.Delivered? ==> registry == Ok(reply.payload)
      ensures reply.Failed? ==> registry == Err(FetchError(reply.data))
      ensures log == old(log) + [FetchProviders]
    {
      log := log + [FetchProviders];
      registry := if reply.Delivered? then Ok(reply.payload) else Err(FetchError(reply.data));
    }

    // The `decreases` clauses rank the methods as their protocol functions are ranked: the
    // sign-in steps 7 down to 3, and `getSession` at HandlerDepth + 2, above the whole
    // sign-in its built-in `onUnauthenticated` starts.

    /** `signIn(provider, options, authorizationParams)` */
    method SignIn(env: Env, replies: Replies, provider: Option<string>,
                  options: map<string, Value>, authorizationParams: Value) returns (outcome: Outcome)
      modifies this
      decreases 7
      ensures Performed(SignInRun(env, replies, old(Snapshot()), provider, options, authorizationParams), outcome)
    {
      var configuredProviders := GetProviders(replies.providers);
      if configuredProviders.Err? {
        return Raised(configuredProviders.error);
      }
      if !Truthy(configuredProviders.value) {
        var errorUrl := Str(env.apiUrl("error"));
        log := log + [Navigate(errorUrl)];
        return Navigated(errorUrl);
      }
      outcome := Choose(env, replies, configuredProviders.value, provider, options, authorizationParams);
    }

    /** `signIn` once a provider registry is configured. */
    method Choose(env: Env, replies: Replies, registry: Value, provider: Option<string>,
                  options: map<string, Value>, authorizationParams: Value) returns (outcome: Outcome)
      modifies this
      decreases 6
      ensures Performed(ChooseProvider(env, replies, old(Snapshot()), registry, provider, options, authorizationParams), outcome)
    {
      var callbackUrl := OptionOr(options, "callbackUrl", Str(env.requestUrl));
      var redirect := OptionOr(options, "redirect", Bool(true));
      var signInAllProvidersPage := Str(ProviderPage(env, callbackUrl));
      if provider.None? || provider.value == "" {
        log := log + [Navigate(signInAllProvidersPage)];
        return Navigated(signInAllProvidersPage);
      }
      var selectedProvider := Member(registry, provider.value);
      if !Truthy(selectedProvider) {
        log := log + [Navigate(signInAllProvidersPage)];
        return Navigated(signInAllProvidersPage);
      }
      var providerType := Member(selectedProvider, "type");
      outcome := Submit(env, replies, provider.value, providerType, options, authorizationParams, callbackUrl, redirect);
    }

    /** `signIn` with a selected provider: CSRF token, then the POST. */
    method Submit(env: Env, replies: Replies, id: string, providerType: Value, options: map<string, Value>,
                  authorizationParams: Value, callbackUrl: Value, redirect: Value) returns (outcome: Outcome)
      modifies this
      decreases 5
      ensures Performed(SubmitSignIn(env, replies, old(Snapshot()), id, providerType, options,
                                      authorizationParams, callbackUrl, redirect), outcome)
    {
      var csrfToken := GetCsrfToken(env, replies.csrf);
      if csrfToken.Err? {
        return Raised(csrfToken.error);
      }
      outcome := Send(env, replies, id, providerType, options, authorizationParams, callbackUrl, redirect, csrfToken.value);
    }

    /** `signIn` once the CSRF token is known: the POST, then its answer. */
    method Send(env: Env, replies: Replies, id: string, providerType: Value, options: map<string, Value>,
                authorizationParams: Value, callbackUrl: Value, redirect: Value, csrfToken: Value)
      returns (outcome: Outcome)
      modifies this
      decreases 4
      ensures Performed(PostSignIn(env, replies, old(Snapshot()), id, providerType, options,
                                   authorizationParams, callbackUrl, redirect, csrfToken), outcome)
    {
      var action := Action(providerType);
      log := log + [Post(action + "/" + id, authorizationParams, Obj(SignInBody(options, csrfToken, callbackUrl)))];
      var data := Response(replies.post);
      outcome := Answer(env, replies, providerType, data, callbackUrl, redirect);
    }

    /** `signIn` after the POST. */
    method Answer(env: Env, replies: Replies, providerType: Value, data: Value, callbackUrl: Value, redirect: Value)
      returns (outcome: Outcome)
      modifies this
      decreases 3
      ensures Performed(AnswerSignIn(env, replies, old(Snapshot()), providerType, data, callbackUrl, redirect), outcome)
    {
      var url := Prop(data, "url");
      if url.Err? {
        return Raised(url.error);
      }
      if Redirects(redirect, providerType) {
        var href := Coalesce(url.value, callbackUrl);
        log := log + [Navigate(href)];
        return Navigated(href);
      }
      var parsed := env.parseUrl(url.value);
      if parsed.Invalid? {
        return Raised(TypeError);
      }
      var refreshed := GetSession(env, replies, DefaultSessionOptions);
      if refreshed.Raised? {
        return refreshed;
      }
      outcome := SignInResult(parsed.error, url.value);
    }

    /** `getSession(options)`: the `onRequest` hook, then `onResponse` or one of the error hooks. */
    method GetSession(env: Env, replies: Replies, options: SessionOptions) returns (outcome: Outcome)
      modifies this
      decreases HandlerDepth(options) + 2
      ensures Performed(GetSessionRun(env, replies, old(Snapshot()), options), outcome)
    {
      var callbackUrlFallback := env.requestUrl;
      var headers := ForwardedHeaders(env.cookie);
      // onRequest
      lastRefreshedAt := Some(env.now);
      var callbackUrl := Or(options.callbackUrl, Str(callbackUrlFallback));
      log := log + [FetchSession(map["callbackUrl" := callbackUrl], headers)];
      match replies.session {
        case Failed(e) =>
          // onRequestError, onResponseError
          loading := false;
          return Raised(FetchError(e));
        case Delivered(sessionData) =>
          outcome := OnResponse(env, replies, options, callbackUrl, sessionData);
      }
    }

    /** The `onResponse` hook of `getSession`. */
    method OnResponse(env: Env, replies: Replies, options: SessionOptions, callbackUrl: Value, sessionData: Value)
      returns (outcome: Outcome)
      modifies this
      decreases HandlerDepth(options) + 1
      ensures Performed(SessionResponse(env, replies, old(Snapshot()), options, callbackUrl, sessionData), outcome)
    {
      data := StoredSession(sessionData);
      log := log + [WriteData(data)];
      loading := false;
      if Truthy(options.required) && CurrentStatus() == Unauthenticated {
        log := log + [CallOnUnauthenticated];
        if options.onUnauthenticated.DefaultSignIn? {
          var fallback := SignIn(env, replies, None, map["callbackUrl" := callbackUrl], Undefined);
          if fallback.Raised? {
            return fallback;
          }
        }
      }
      return Returned(sessionData);
    }

    /** `signOut(options)` */
    method SignOut(env: Env, replies: Replies, options: map<string, Value>) returns (outcome: Outcome)
      modifies this
      ensures Performed(SignOutRun(env, replies, old(Snapshot()), options), outcome)
    {
      var callbackUrl := OptionOr(options, "callbackUrl", Str(env.requestUrl));
      var redirect := OptionOr(options, "redirect", Bool(true));
      var csrfToken := GetCsrfToken(env, replies.csrf);
      if csrfToken.Err? {
        return Raised(csrfToken.error);
      }
      if !Truthy(csrfToken.value) {
        return Raised(HttpError(400, SignOutCsrfMessage));
      }
      outcome := Leave(env, replies, callbackUrl, redirect, csrfToken.value);
    }

    /** `signOut` once a CSRF token is known. */
    method Leave(env: Env, replies: Replies, callbackUrl: Value, redirect: Value, csrfToken: Value)
      returns (outcome: Outcome)
      modifies this
      ensures Performed(PostSignOut(env, replies, old(Snapshot()), callbackUrl, redirect, csrfToken), outcome)
    {
      // onRequest sets the body
      var body := SignOutBody(csrfToken, callbackUrl, env.requestUrl);
      log := log + [Post("signout", Undefined, Obj(body))];
      var signoutData := Response(replies.post);
      if Truthy(redirect) {
        var url := Prop(signoutData, "url");
        if url.Err? {
          return Raised(url.error);
        }
        var href := Coalesce(url.value, callbackUrl);
        log := log + [Navigate(href)];
        return Navigated(href);
      }
      var refreshed := GetSession(env, replies, DefaultSessionOptions);
      if refreshed.Raised? {
        return refreshed;
      }
      return Returned(signoutData);
    }
  }
}

=== FILE: js_values.dfy ===
/**
 * The slice of JavaScript value semantics the session composable relies on:
 * truthiness tests (`if (x)`, `!x`, `a || b`), nullish coalescing (`a ?? b`)
 * and property reads (`v.key`, `v[key]`), which throw a TypeError on `null`
 * and `undefined`.
 */
module JsValues {

  datatype Option<+T> = None | Some(value: T)

  datatype Result<+T, +E> = Ok(value: T) | Err(error: E)

  /** A JavaScript value as it arrives from the transport or from a caller. */
  datatype Value =
    | Undefined
    | Null
    | Bool(b: bool)
    | Num(n: int)
    | Str(s: string)
    | Arr(items: seq<Value>)
    | Obj(fields: map<string, Value>)

  /** What a flow can throw (a rejected promise, seen from the caller). */
  datatype Thrown =
    | TypeError
    | FetchError(data: Value)                        // a transport failure, carrying `error.data`
    | HttpError(statusCode: int, statusMessage: string)  // `createError({ statusCode, statusMessage })`

  predicate Nullish(v: Value) {
    v.Undefined? || v.Null?
  }

  /** JavaScript truthiness. */
  predicate Truthy(v: Value) {
    match v
    case Undefined => false
    case Null => false
    case Bool(b) => b
    case Num(n) => n != 0
    case Str(s) => s != ""
    case _ => true
  }

  /** `a ?? b` */
  function Coalesce(a: Value, b: Value): Value {
    if Nullish(a) then b else a
  }

  /** `a || b` */
  function Or(a: Value, b: Value): Value {
    if Truthy(a) then a else b
  }

  /** `v[key]` on a value that is neither `null` nor `undefined`. */
  function Member(v: Value, key: string): Value {
    if v.Obj? && key in v.fields then v.fields[key] else Undefined
  }

  /** `v[key]` on any value: reading a property of `null` or `undefined` throws. */
  function Prop(v: Value, key: string): (r: Result<Value, Thrown>)
    ensures r.Err? <==> Nullish(v)
    ensures r.Err? ==> r.error == TypeError
    ensures r.Ok? && v.Obj? && key in v.fields ==> r.value == v.fields[key]
    ensures r.Ok? && !(v.Obj? && key in v.fields) ==> r.value == Undefined
  {
    if Nullish(v) then Err(TypeError) else Ok(Member(v, key))
  }
}

=== FILE: properties.dfy ===
/**
 * What the session lifecycle guarantees, proved about the runs of module
 * SessionProtocol (and so, through their postconditions, about the methods
 * of UseSession.SessionClient).
 */
module SessionProperties {
  import opened JsValues
  import opened SessionProtocol

  /** No event of the trace is a POST. */
  ghost predicate NoPost(trace: seq<Event>) {
    forall i :: 0 <= i < |trace| ==> !trace[i].Post?
  }

  /** Every POST comes after a CSRF token fetch. */
  ghost predicate CsrfBeforePost(trace: seq<Event>) {
    forall i :: 0 <= i < |trace| && trace[i].Post? ==> exists j :: 0 <= j < i && trace[j].FetchCsrf?
  }

  /** Every POST body has a `csrfToken` key (its value is stated by PostsSend). */
  ghost predicate PostsCarryToken(trace: seq<Event>) {
    forall i :: 0 <= i < |trace| && trace[i].Post? ==> trace[i].body.Obj? && "csrfToken" in trace[i].body.fields
  }

  /** Every POST body's `csrfToken` is `token`. */
  ghost predicate PostsSend(trace: seq<Event>, token: Value) {
    forall i :: 0 <= i < |trace| && trace[i].Post? ==>
      trace[i].body.Obj? && "csrfToken" in trace[i].body.fields && trace[i].body.fields["csrfToken"] == token
  }

  /** A navigation is the last effect of the flow. */
  ghost predicate NavigationIsFinal(trace: seq<Event>) {
    forall i :: 0 <= i < |trace| && trace[i].Navigate? ==> i == |trace| - 1
  }

  /** `onUnauthenticated` runs only right after `null` was written to the session cell. */
  ghost predicate HandlerFollowsEmptyWrite(trace: seq<Event>) {
    forall i :: 0 <= i < |trace| && trace[i].CallOnUnauthenticated? ==> 0 < i && trace[i - 1] == WriteData(None)
  }

  /** The flow fetched the session. */
  ghost predicate Refreshes(trace: seq<Event>) {
    exists i :: 0 <= i < |trace| && trace[i].FetchSession?
  }

  /** The properties every flow's trace has. */
  ghost predicate WellOrdered(trace: seq<Event>) {
    CsrfBeforePost(trace) && PostsCarryToken(trace) && NavigationIsFinal(trace) && HandlerFollowsEmptyWrite(trace)
  }

  // ----- sign-in: provider resolution -----

  /** With no provider registry configured, sign-in goes to the error page, without a CSRF fetch or a POST. */
  lemma SignInWithoutProviders(env: Env, replies: Replies, store: Store, provider: Option<string>,
                               options: map<string, Value>, authorizationParams: Value)
    requires replies.providers.Delivered? && !Truthy(replies.providers.payload)
    ensures var run := SignInRun(env, replies, store, provider, options, authorizationParams);
            && run.trace == [FetchProviders, Navigate(Str(env.apiUrl("error")))]
            && run.outcome == Navigated(Str(env.apiUrl("error")))
            && run.store == store
  {
  }

  /**
   * Without a provider id, or with one the registry does not know, sign-in goes to the
   * provider-selection page with `callbackUrl` in its query, without a CSRF fetch or a POST.
   */
  lemma SignInWithoutKnownProvider(env: Env, replies: Replies, store: Store, provider: Option<string>,
                                   options: map<string, Value>, authorizationParams: Value)
    requires replies.providers.Delivered? && Truthy(replies.providers.payload)
    requires provider.None? || provider.value == "" || !Truthy(Member(replies.providers.payload, provider.value))
    ensures var run := SignInRun(env, replies, store, provider, options, authorizationParams);
            var callbackUrl := OptionOr(options, "callbackUrl", Str(env.requestUrl));
            var page := Str(ProviderPage(env, callbackUrl));
            && run.trace == [FetchProviders, Navigate(page)]
            && run.outcome == Navigated(page)
            && run.store == store
  {
    var run := SignInRun(env, replies, store, provider, options, authorizationParams);
    var chosen := ChooseProvider(env, replies, store, replies.providers.payload, provider, options, authorizationParams);
    assert run.trace == [FetchProviders] + chosen.trace;
  }

  // ----- sign-in: the request -----

  /**
   * With a configured provider and a CSRF token, sign-in is the provider fetch, the
   * token fetch and the POST, followed by whatever handling the POST's answer performs.
   */
  lemma SignInThroughPost(env: Env, replies: Replies, store: Store, id: string,
                          options: map<string, Value>, authorizationParams: Value)
    requires replies.providers.Delivered? && Truthy(replies.providers.payload)
    requires id != "" && Truthy(Member(replies.providers.payload, id))
    requires replies.csrf.Delivered? && !Nullish(replies.csrf.payload)
    ensures var run := SignInRun(env, replies, store, Some(id), options, authorizationParams);
            var providerType := Member(Member(replies.providers.payload, id), "type");
            var callbackUrl := OptionOr(options, "callbackUrl", Str(env.requestUrl));
            var redirect := OptionOr(options, "redirect", Bool(true));
            var token := Member(replies.csrf.payload, "csrfToken");
            var answered := AnswerSignIn(env, replies, store, providerType, Response(replies.post), callbackUrl, redirect);
            && run.trace == [FetchProviders, FetchCsrf(ForwardedHeaders(env.cookie)),
                             Post(Action(providerType) + "/" + id, authorizationParams,
                                  Obj(SignInBody(options, token, callbackUrl)))] + answered.trace
            && run.outcome == answered.outcome
            && run.store == answered.store
  {
    var registry := replies.providers.payload;
    var providerType := Member(Member(registry, id), "type");
    var callbackUrl := OptionOr(options, "callbackUrl", Str(env.requestUrl));
    var redirect := OptionOr(options, "redirect", Bool(true));
    var token := Member(replies.csrf.payload, "csrfToken");
    var chosen := ChooseProvider(env, replies, store, registry, Some(id), options, authorizationParams);
    var posted := PostSignIn(env, replies, store, id, providerType, options, authorizationParams, callbackUrl, redirect, token);
    var answered := AnswerSignIn(env, replies, store, providerType, Response(replies.post), callbackUrl, redirect);
    assert chosen == SubmitSignIn(env, replies, store, id, providerType, options, authorizationParams, callbackUrl, redirect);
    assert chosen.trace == [FetchCsrf(ForwardedHeaders(env.cookie))] + posted.trace;
    assert posted.trace == [posted.trace[0]] + answered.trace;
  }

  /**
   * With a configured provider, sign-in fetches a CSRF token and then POSTs to
   * `callback/<id>` for a credentials provider and to `signin/<id>` otherwise, with the
   * caller's options overridden by the token, the callback URL and `json: true`.
   */
  lemma SignInRequest(env: Env, replies: Replies, store: Store, id: string,
                      options: map<string, Value>, authorizationParams: Value)
    requires replies.providers.Delivered? && Truthy(replies.providers.payload)
    requires id != "" && Truthy(Member(replies.providers.payload, id))
    requires replies.csrf.Delivered? && !Nullish(replies.csrf.payload)
    ensures var run := SignInRun(env, replies, store, Some(id), options, authorizationParams);
            var providerType := Member(Member(replies.providers.payload, id), "type");
            var callbackUrl := OptionOr(options, "callbackUrl", Str(env.requestUrl));
            var token := Member(replies.csrf.payload, "csrfToken");
            var path := (if providerType == Str("credentials") then "callback/" else "signin/") + id;
            && |run.trace| >= 3
            && run.trace[..3] == [FetchProviders, FetchCsrf(ForwardedHeaders(env.cookie)),
                                  Post(path, authorizationParams, Obj(SignInBody(options, token, callbackUrl)))]
  {
    var providerType := Member(Member(replies.providers.payload, id), "type");
    SignInThroughPost(env, replies, store, id, options, authorizationParams);
    assert Action(providerType) + "/" + id == (if providerType == Str("credentials") then "callback/" else "signin/") + id;
  }

  /**
   * The sign-in POST carries the caller's `callbackUrl`, or the current request URL when
   * the caller leaves it out or passes `undefined`.
   */
  lemma SignInCallbackUrl(env: Env, replies: Replies, store: Store, id: string,
                          options: map<string, Value>, authorizationParams: Value)
    requires replies.providers.Delivered? && Truthy(replies.providers.payload)
    requires id != "" && Truthy(Member(replies.providers.payload, id))
    requires replies.csrf.Delivered? && !Nullish(replies.csrf.payload)
    ensures var run := SignInRun(env, replies, store, Some(id), options, authorizationParams);
            && |run.trace| >= 3 && run.trace[2].Post? && run.trace[2].body.Obj?
            && "callbackUrl" in run.trace[2].body.fields
            && ("callbackUrl" !in options || options["callbackUrl"] == Undefined ==>
                  run.trace[2].body.fields["callbackUrl"] == Str(env.requestUrl))
            && ("callbackUrl" in options && options["callbackUrl"] != Undefined ==>
                  run.trace[2].body.fields["callbackUrl"] == options["callbackUrl"])
  {
    SignInRequest(env, replies, store, id, options, authorizationParams);
    var run := SignInRun(env, replies, store, Some(id), options, authorizationParams);
    assert run.trace[2] == run.trace[..3][2];
  }

  /**
   * With a selected provider but no CSRF token object, sign-in raises after the token
   * fetch: the transport's error, or a TypeError for a `null` response. It never POSTs.
   */
  lemma SignInWithoutCsrf(env: Env, replies: Replies, store: Store, id: string,
                          options: map<string, Value>, authorizationParams: Value)
    requires replies.providers.Delivered? && Truthy(replies.providers.payload)
    requires id != "" && Truthy(Member(replies.providers.payload, id))
    requires replies.csrf.Failed? || Nullish(replies.csrf.payload)
    ensures var run := SignInRun(env, replies, store, Some(id), options, authorizationParams);
            && run.trace == [FetchProviders, FetchCsrf(ForwardedHeaders(env.cookie))]
            && NoPost(run.trace)
            && run.store == store
            && (replies.csrf.Failed? ==> run.outcome == Raised(FetchError(replies.csrf.data)))
            && (replies.csrf.Delivered? ==> run.outcome == Raised(TypeError))
  {
    var registry := replies.providers.payload;
    var providerType := Member(Member(registry, id), "type");
    var callbackUrl := OptionOr(options, "callbackUrl", Str(env.requestUrl));
    var redirect := OptionOr(options, "redirect", Bool(true));
    var chosen := ChooseProvider(env, replies, store, registry, Some(id), options, authorizationParams);
    assert chosen == SubmitSignIn(env, replies, store, id, providerType, options, authorizationParams, callbackUrl, redirect);
    assert SignInRun(env, replies, store, Some(id), options, authorizationParams).trace == [FetchProviders] + chosen.trace;
  }

  /**
   * Sign-in navigates exactly when `redirect` (default `true`) is truthy or the provider
   * is neither a credentials nor an email provider; it then goes to the response `url`,
   * or to `callbackUrl` when the response has none. A failed POST is not raised: its
   * error payload is used as the response, and reading `url` off a `null` or missing
   * payload throws.
   */
  lemma SignInRedirect(env: Env, replies: Replies, store: Store, id: string,
                       options: map<string, Value>, authorizationParams: Value)
    requires replies.providers.Delivered? && Truthy(replies.providers.payload)
    requires id != "" && Truthy(Member(replies.providers.payload, id))
    requires replies.csrf.Delivered? && !Nullish(replies.csrf.payload)
    ensures var run := SignInRun(env, replies, store, Some(id), options, authorizationParams);
            var providerType := Member(Member(replies.providers.payload, id), "type");
            var callbackUrl := OptionOr(options, "callbackUrl", Str(env.requestUrl));
            var redirect := OptionOr(options, "redirect", Bool(true));
            var data := Response(replies.post);
            var href := Coalesce(Member(data, "url"), callbackUrl);
            && (Nullish(data) ==> run.outcome == Raised(TypeError) && |run.trace| == 3 && run.store == store)
            && (!Nullish(data) ==>
                  (run.outcome.Navigated? <==>
                     Truthy(redirect) || (providerType != Str("credentials") && providerType != Str("email"))))
            && (run.outcome.Navigated? ==>
                  run.outcome == Navigated(href) && |run.trace| == 4 && run.trace[3] == Navigate(href)
                  && run.store == store)
  {
    SignInThroughPost(env, replies, store, id, options, authorizationParams);
    DefaultRefresh(env, replies, store);
  }

  /**
   * In return mode sign-in refreshes the session before it returns, and returns
   * `{ error, status: 200, ok: true, url }` where `url` is `null` exactly when the
   * `error` query parameter of the response url is set (and not empty). A response url
   * that does not parse throws before the refresh; a failed refresh is raised.
   */
  lemma SignInReturnMode(env: Env, replies: Replies, store: Store, id: string,
                         options: map<string, Value>, authorizationParams: Value)
    requires replies.providers.Delivered? && Truthy(replies.providers.payload)
    requires id != "" && Truthy(Member(replies.providers.payload, id))
    requires replies.csrf.Delivered? && !Nullish(replies.csrf.payload)
    requires !Nullish(Response(replies.post))
    requires !Redirects(OptionOr(options, "redirect", Bool(true)), Member(Member(replies.providers.payload, id), "type"))
    ensures var run := SignInRun(env, replies, store, Some(id), options, authorizationParams);
            var url := Member(Response(replies.post), "url");
            var parsed := env.parseUrl(url);
            var stamped := Some(env.now);
            && (parsed.Invalid? ==> run.outcome == Raised(TypeError) && |run.trace| == 3 && run.store == store)
            && (parsed.Parsed? ==>
                  && |run.trace| >= 4
                  && run.trace[3] == FetchSession(map["callbackUrl" := Str(env.requestUrl)], ForwardedHeaders(env.cookie)))
            && (parsed.Parsed? && replies.session.Failed? ==>
                  run.outcome == Raised(FetchError(replies.session.data))
                  && run.store == Store(store.data, false, stamped))
            && (parsed.Parsed? && replies.session.Delivered? ==>
                  var error := parsed.error;
                  && run.outcome.SignedIn? && run.outcome.ok && run.outcome.status == 200 && run.outcome.error == error
                  && (error.Some? && error.value != "" ==> run.outcome.url == Null)
                  && (!(error.Some? && error.value != "") ==> run.outcome.url == url)
                  && run.trace[3..] == [run.trace[3], WriteData(StoredSession(replies.session.payload))]
                  && run.store == Store(StoredSession(replies.session.payload), false, stamped))
  {
    SignInThroughPost(env, replies, store, id, options, authorizationParams);
    DefaultRefresh(env, replies, store);
  }

  // ----- getSession -----

  /**
   * `getSession()` without options, as sign-in and sign-out call it: one session fetch
   * with the current URL as `callbackUrl`, then (on a response) one write of the data
   * cell; it never navigates, POSTs or calls `onUnauthenticated`.
   */
  lemma DefaultRefresh(env: Env, replies: Replies, store: Store)
    ensures var run := GetSessionRun(env, replies, store, DefaultSessionOptions);
            var request := FetchSession(map["callbackUrl" := Str(env.requestUrl)], ForwardedHeaders(env.cookie));
            && (replies.session.Failed? ==>
                  run.trace == [request] && run.outcome == Raised(FetchError(replies.session.data)))
            && (replies.session.Delivered? ==>
                  run.trace == [request, WriteData(StoredSession(replies.session.payload))]
                  && run.outcome == Returned(replies.session.payload))
  {
    if replies.session.Delivered? {
      var requested := store.(lastRefreshedAt := Some(env.now));
      var responded := SessionResponse(env, replies, requested, DefaultSessionOptions, Str(env.requestUrl), replies.session.payload);
      assert responded.trace == [WriteData(StoredSession(replies.session.payload))];
    }
  }

  /**
   * On a response `getSession` sends `callbackUrl` (the caller's, else the current URL)
   * and the cookie header, stamps `lastRefreshedAt`, stores the payload if it is a
   * non-empty object and `null` otherwise, clears `loading`, and calls
   * `onUnauthenticated` exactly when `required` holds and the stored data is `null`,
   * after that write.
   */
  lemma GetSessionResponse(env: Env, replies: Replies, store: Store, options: SessionOptions)
    requires replies.session.Delivered?
    ensures var run := GetSessionRun(env, replies, store, options);
            var payload := replies.session.payload;
            var callbackUrl := Or(options.callbackUrl, Str(env.requestUrl));
            && |run.trace| >= 2
            && run.trace[0] == FetchSession(map["callbackUrl" := callbackUrl], ForwardedHeaders(env.cookie))
            && run.trace[1] == WriteData(StoredSession(payload))
            && run.store == Store(StoredSession(payload), false, Some(env.now))
            && (|run.trace| > 2 <==> Truthy(options.required) && !IsNonEmptyObject(payload))
            && (|run.trace| > 2 ==> run.trace[2] == CallOnUnauthenticated)
            && (Truthy(options.required) && !IsNonEmptyObject(payload) && options.onUnauthenticated.DefaultSignIn? ==>
                  var fallback := SignInRun(env, replies, run.store, None, map["callbackUrl" := callbackUrl], Undefined);
                  && run.trace[3..] == fallback.trace
                  && run.outcome == (if fallback.outcome.Raised? then fallback.outcome else Returned(payload)))
            && (!(Truthy(options.required) && !IsNonEmptyObject(payload) && options.onUnauthenticated.DefaultSignIn?) ==>
                  |run.trace| <= 3 && run.outcome == Returned(payload))
  {
    var payload := replies.session.payload;
    var callbackUrl := Or(options.callbackUrl, Str(env.requestUrl));
    var requested := store.(lastRefreshedAt := Some(env.now));
    var responded := SessionResponse(env, replies, requested, options, callbackUrl, payload);
    var written := requested.(data := StoredSession(payload), loading := false);
    if Truthy(options.required) && StatusOf(written) == Unauthenticated && options.onUnauthenticated.DefaultSignIn? {
      DefaultHandler(env, replies, written, callbackUrl);
    }
  }

  /**
   * `getSession({ required: true })` without a session and with the built-in handler: after
   * the request, the write of `null` and the handler call, it performs exactly one fallback
   * sign-in with `getSession`'s `callbackUrl` (the caller's, else the current URL). That
   * sign-in fetches the providers and goes to the selection page (or the error page), and
   * `getSession` still resolves to the payload; only a rejected provider fetch is raised.
   */
  lemma RequiredWithoutSession(env: Env, replies: Replies, store: Store, options: SessionOptions)
    requires replies.session.Delivered? && !IsNonEmptyObject(replies.session.payload)
    requires Truthy(options.required) && options.onUnauthenticated.DefaultSignIn?
    ensures var run := GetSessionRun(env, replies, store, options);
            var callbackUrl := Or(options.callbackUrl, Str(env.requestUrl));
            var head := [FetchSession(map["callbackUrl" := callbackUrl], ForwardedHeaders(env.cookie)),
                         WriteData(None), CallOnUnauthenticated, FetchProviders];
            && run.store == Store(None, false, Some(env.now))
            && (replies.providers.Failed? ==>
                  run.trace == head && run.outcome == Raised(FetchError(replies.providers.data)))
            && (replies.providers.Delivered? && !Truthy(replies.providers.payload) ==>
                  run.trace == head + [Navigate(Str(env.apiUrl("error")))]
                  && run.outcome == Returned(replies.session.payload))
            && (replies.providers.Delivered? && Truthy(replies.providers.payload) ==>
                  run.trace == head + [Navigate(Str(ProviderPage(env, callbackUrl)))]
                  && run.outcome == Returned(replies.session.payload))
  {
    var callbackUrl := Or(options.callbackUrl, Str(env.requestUrl));
    var written := Store(None, false, Some(env.now));
    GetSessionResponse(env, replies, store, options);
    DefaultHandler(env, replies, written, callbackUrl);
  }

  /**
   * The built-in `onUnauthenticated` is `signIn(undefined, { callbackUrl })`: it fetches the
   * providers and then goes to the provider-selection page carrying `getSession`'s
   * `callbackUrl` (or to the error page when no providers are configured). It never
   * fetches a CSRF token or POSTs, and leaves the store untouched.
   */
  lemma DefaultHandler(env: Env, replies: Replies, store: Store, callbackUrl: Value)
    ensures var run := SignInRun(env, replies, store, None, map["callbackUrl" := callbackUrl], Undefined);
            && run.store == store
            && (replies.providers.Failed? ==>
                  run.trace == [FetchProviders] && run.outcome == Raised(FetchError(replies.providers.data)))
            && (replies.providers.Delivered? && !Truthy(replies.providers.payload) ==>
                  run.trace == [FetchProviders, Navigate(Str(env.apiUrl("error")))])
            && (replies.providers.Delivered? && Truthy(replies.providers.payload) && !callbackUrl.Undefined? ==>
                  run.trace == [FetchProviders, Navigate(Str(ProviderPage(env, callbackUrl)))])
            && (replies.providers.Delivered? ==> |run.trace| == 2 && run.trace[1].Navigate?)
  {
    if replies.providers.Delivered? && Truthy(replies.providers.payload) {
      var options := map["callbackUrl" := callbackUrl];
      var chosen := ChooseProvider(env, replies, store, replies.providers.payload, None, options, Undefined);
      assert SignInRun(env, replies, store, None, options, Undefined).trace == [FetchProviders] + chosen.trace;
    }
  }

  /** On a transport error `getSession` only clears `loading` (and keeps the request stamp); `data` is untouched. */
  lemma GetSessionError(env: Env, replies: Replies, store: Store, options: SessionOptions)
    requires replies.session.Failed?
    ensures var run := GetSessionRun(env, replies, store, options);
            && run.store == Store(store.data, false, Some(env.now))
            && run.outcome == Raised(FetchError(replies.session.data))
            && |run.trace| == 1 && run.trace[0].FetchSession?
  {
  }

  /** After a session response the status agrees with the data cell. */
  lemma StatusTracksData(env: Env, replies: Replies, store: Store, options: SessionOptions)
    requires replies.session.Delivered?
    ensures var stored := GetSessionRun(env, replies, store, options).store;
            && (StatusOf(stored) == Authenticated <==> stored.data.Some?)
            && (StatusOf(stored) == Unauthenticated <==> stored.data.None?)
            && (StatusOf(stored) == Authenticated <==> IsNonEmptyObject(replies.session.payload))
  {
    GetSessionResponse(env, replies, store, options);
  }

  // ----- signOut -----

  /**
   * Without a truthy CSRF token sign-out throws before any POST: the transport's error
   * when the token fetch fails, a TypeError when it yields no object, and otherwise the
   * 400 error "Could not fetch CSRF Token for signing out".
   */
  lemma SignOutWithoutCsrf(env: Env, replies: Replies, store: Store, options: map<string, Value>)
    requires !(replies.csrf.Delivered? && !Nullish(replies.csrf.payload) && Truthy(Member(replies.csrf.payload, "csrfToken")))
    ensures var run := SignOutRun(env, replies, store, options);
            && run.trace == [FetchCsrf(ForwardedHeaders(env.cookie))]
            && NoPost(run.trace)
            && run.store == store
            && (replies.csrf.Failed? ==> run.outcome == Raised(FetchError(replies.csrf.data)))
            && (replies.csrf.Delivered? && Nullish(replies.csrf.payload) ==> run.outcome == Raised(TypeError))
            && (replies.csrf.Delivered? && !Nullish(replies.csrf.payload) ==>
                  run.outcome == Raised(HttpError(400, SignOutCsrfMessage)))
  {
  }

  /**
   * With a token, sign-out POSTs `{ csrfToken, callbackUrl, json: "true" }` to `signout`
   * (`callbackUrl` falling back to the current URL when falsy), and then either navigates
   * to the response `url` or `callbackUrl`, or refreshes the session and returns the
   * response payload, which is the error payload when the POST failed.
   */
  lemma SignOutFlow(env: Env, replies: Replies, store: Store, options: map<string, Value>)
    requires replies.csrf.Delivered? && !Nullish(replies.csrf.payload)
    requires Truthy(Member(replies.csrf.payload, "csrfToken"))
    ensures var run := SignOutRun(env, replies, store, options);
            var token := Member(replies.csrf.payload, "csrfToken");
            var callbackUrl := OptionOr(options, "callbackUrl", Str(env.requestUrl));
            var redirect := OptionOr(options, "redirect", Bool(true));
            var data := Response(replies.post);
            var body := map["csrfToken" := token, "callbackUrl" := Or(callbackUrl, Str(env.requestUrl)), "json" := Str("true")];
            && |run.trace| >= 2
            && run.trace[..2] == [FetchCsrf(ForwardedHeaders(env.cookie)), Post("signout", Undefined, Obj(body))]
            && (Truthy(redirect) && Nullish(data) ==>
                  run.outcome == Raised(TypeError) && |run.trace| == 2 && run.store == store)
            && (Truthy(redirect) && !Nullish(data) ==>
                  run.outcome == Navigated(Coalesce(Member(data, "url"), callbackUrl))
                  && run.trace[2..] == [Navigate(Coalesce(Member(data, "url"), callbackUrl))]
                  && run.store == store)
            && (!Truthy(redirect) ==>
                  |run.trace| >= 3
                  && run.trace[2] == FetchSession(map["callbackUrl" := Str(env.requestUrl)], ForwardedHeaders(env.cookie)))
            && (!Truthy(redirect) && replies.session.Failed? ==>
                  run.outcome == Raised(FetchError(replies.session.data))
                  && run.store == Store(store.data, false, Some(env.now)))
            && (!Truthy(redirect) && replies.session.Delivered? ==>
                  run.outcome == Returned(data)
                  && run.store == Store(StoredSession(replies.session.payload), false, Some(env.now)))
  {
    var token := Member(replies.csrf.payload, "csrfToken");
    var callbackUrl := OptionOr(options, "callbackUrl", Str(env.requestUrl));
    var redirect := OptionOr(options, "redirect", Bool(true));
    var posted := PostSignOut(env, replies, store, callbackUrl, redirect, token);
    assert SignOutRun(env, replies, store, options).trace == [FetchCsrf(ForwardedHeaders(env.cookie))] + posted.trace;
    if !Truthy(redirect) {
      DefaultRefresh(env, replies, store);
    }
  }

  // ----- ordering, for every input -----

  /** No event of the trace is a navigation. */
  ghost predicate NoNavigation(trace: seq<Event>) {
    forall i :: 0 <= i < |trace| ==> !trace[i].Navigate?
  }

  /** A trace fetches the session exactly when one of its parts does. */
  lemma {:induction false} RefreshesAppend(a: seq<Event>, b: seq<Event>)
    ensures Refreshes(a + b) <==> Refreshes(a) || Refreshes(b)
  {
    var t := a + b;
    if Refreshes(a) {
      var i :| 0 <= i < |a| && a[i].FetchSession?;
      assert t[i] == a[i];
    }
    if Refreshes(b) {
      var i :| 0 <= i < |b| && b[i].FetchSession?;
      assert t[|a| + i] == b[i];
    }
    if Refreshes(t) {
      var i :| 0 <= i < |t| && t[i].FetchSession?;
      if i < |a| {
        assert a[i] == t[i];
      } else {
        assert b[i - |a|] == t[i];
      }
    }
  }

  /**
   * Well-ordered traces compose: the first part must not navigate (a navigation ends the
   * flow), and the second must not open with the handler (which needs the write before it).
   */
  lemma {:induction false} WellOrderedAppend(a: seq<Event>, b: seq<Event>)
    requires WellOrdered(a) && WellOrdered(b) && NoNavigation(a)
    requires |b| > 0 ==> !b[0].CallOnUnauthenticated?
    ensures WellOrdered(a + b)
  {
    var t := a + b;
    forall i | 0 <= i < |t| && t[i].Post?
      ensures exists j :: 0 <= j < i && t[j].FetchCsrf?
    {
      if i < |a| {
        assert a[i] == t[i];
        var j :| 0 <= j < i && a[j].FetchCsrf?;
        assert t[j] == a[j];
      } else {
        assert b[i - |a|] == t[i];
        var j :| 0 <= j < i - |a| && b[j].FetchCsrf?;
        assert t[|a| + j] == b[j];
      }
    }
    forall i | 0 <= i < |t| && t[i].Post?
      ensures t[i].body.Obj? && "csrfToken" in t[i].body.fields
    {
      if i < |a| {
        assert a[i] == t[i];
      } else {
        assert b[i - |a|] == t[i];
      }
    }
    forall i | 0 <= i < |t| && t[i].Navigate?
      ensures i == |t| - 1
    {
      assert b[i - |a|] == t[i];
    }
    forall i | 0 <= i < |t| && t[i].CallOnUnauthenticated?
      ensures 0 < i && t[i - 1] == WriteData(None)
    {
      if i < |a| {
        assert a[i] == t[i];
        assert a[i - 1] == t[i - 1];
      } else {
        assert b[i - |a|] == t[i];
        assert b[i - |a| - 1] == t[i - 1];
      }
    }
  }

  /** A CSRF fetch followed by a POST carrying the token is well ordered. */
  lemma SentWellOrdered(headers: map<string, string>, path: string, params: Value, body: map<string, Value>)
    requires "csrfToken" in body
    ensures var sent := [FetchCsrf(headers), Post(path, params, Obj(body))];
            WellOrdered(sent) && NoNavigation(sent)
  {
    var sent := [FetchCsrf(headers), Post(path, params, Obj(body))];
    assert sent[1].Post? && sent[0].FetchCsrf?;
  }

  /** The write of `null` followed by the handler call is well ordered. */
  lemma HandlerHeadWellOrdered()
    ensures var head := [WriteData(None), CallOnUnauthenticated];
            WellOrdered(head) && NoNavigation(head) && NoPost(head)
  {
    var head := [WriteData(None), CallOnUnauthenticated];
    assert head[0] == WriteData(None);
  }

  /** Traces without POSTs compose. */
  lemma {:induction false} NoPostAppend(a: seq<Event>, b: seq<Event>)
    requires NoPost(a) && NoPost(b)
    ensures NoPost(a + b)
  {
    forall i | 0 <= i < |a + b|
      ensures !(a + b)[i].Post?
    {
      if i < |a| {
        assert (a + b)[i] == a[i];
      } else {
        assert (a + b)[i] == b[i - |a|];
      }
    }
  }

  /** Sign-in's POST step is the POST followed by the handling of its answer. */
  lemma PostSignInShape(env: Env, replies: Replies, store: Store, id: string, providerType: Value,
                        options: map<string, Value>, authorizationParams: Value,
                        callbackUrl: Value, redirect: Value, csrfToken: Value)
    ensures var posted := PostSignIn(env, replies, store, id, providerType, options, authorizationParams,
                                     callbackUrl, redirect, csrfToken);
            var answered := AnswerSignIn(env, replies, store, providerType, Response(replies.post), callbackUrl, redirect);
            && posted.trace == [Post(Action(providerType) + "/" + id, authorizationParams,
                                     Obj(SignInBody(options, csrfToken, callbackUrl)))] + answered.trace
            && posted.outcome == answered.outcome
            && posted.store == answered.store
  {
  }

  /** What sign-in does after its POST is well ordered, and touches the store only by refreshing the session. */
  lemma AnswerSignInOrdering(env: Env, replies: Replies, store: Store, providerType: Value, data: Value,
                             callbackUrl: Value, redirect: Value)
    ensures var run := AnswerSignIn(env, replies, store, providerType, data, callbackUrl, redirect);
            && WellOrdered(run.trace) && NoPost(run.trace)
            && (|run.trace| > 0 ==> !run.trace[0].CallOnUnauthenticated?)
            && (!Refreshes(run.trace) ==> run.store == store)
  {
    DefaultRefresh(env, replies, store);
  }

  /** Sign-in with a selected provider opens with the CSRF fetch and is well ordered. */
  lemma SubmitSignInOrdering(env: Env, replies: Replies, store: Store, id: string, providerType: Value,
                             options: map<string, Value>, authorizationParams: Value,
                             callbackUrl: Value, redirect: Value)
    ensures var run := SubmitSignIn(env, replies, store, id, providerType, options, authorizationParams, callbackUrl, redirect);
            && WellOrdered(run.trace) && |run.trace| > 0 && run.trace[0].FetchCsrf?
            && (!Refreshes(run.trace) ==> run.store == store)
  {
    var run := SubmitSignIn(env, replies, store, id, providerType, options, authorizationParams, callbackUrl, redirect);
    match CsrfToken(replies.csrf)
    case Err(_) =>
    case Ok(token) =>
      var posted := PostSignIn(env, replies, store, id, providerType, options, authorizationParams, callbackUrl, redirect, token);
      var answered := AnswerSignIn(env, replies, store, providerType, Response(replies.post), callbackUrl, redirect);
      var post := Post(Action(providerType) + "/" + id, authorizationParams, Obj(SignInBody(options, token, callbackUrl)));
      var sent := [FetchCsrf(ForwardedHeaders(env.cookie)), post];
      PostSignInShape(env, replies, store, id, providerType, options, authorizationParams, callbackUrl, redirect, token);
      assert run.trace == [sent[0]] + posted.trace;
      assert run.trace == sent + answered.trace;
      SentWellOrdered(ForwardedHeaders(env.cookie), Action(providerType) + "/" + id, authorizationParams,
                      SignInBody(options, token, callbackUrl));
      AnswerSignInOrdering(env, replies, store, providerType, Response(replies.post), callbackUrl, redirect);
      WellOrderedAppend(sent, answered.trace);
      RefreshesAppend(sent, answered.trace);
  }

  /**
   * Every sign-in, whatever the inputs: the provider fetch comes first, every POST follows a
   * CSRF fetch and carries the token, a navigation ends the flow, and the store changes only
   * through a session fetch.
   */
  lemma SignInOrdering(env: Env, replies: Replies, store: Store, provider: Option<string>,
                       options: map<string, Value>, authorizationParams: Value)
    ensures var run := SignInRun(env, replies, store, provider, options, authorizationParams);
            && |run.trace| > 0 && run.trace[0] == FetchProviders
            && WellOrdered(run.trace)
            && (!Refreshes(run.trace) ==> run.store == store)
  {
    var run := SignInRun(env, replies, store, provider, options, authorizationParams);
    if replies.providers.Delivered? && Truthy(replies.providers.payload) {
      var registry := replies.providers.payload;
      var chosen := ChooseProvider(env, replies, store, registry, provider, options, authorizationParams);
      assert run.trace == [FetchProviders] + chosen.trace;
      if !(provider.None? || provider.value == "" || !Truthy(Member(registry, provider.value))) {
        var id := provider.value;
        var providerType := Member(Member(registry, id), "type");
        var callbackUrl := OptionOr(options, "callbackUrl", Str(env.requestUrl));
        var redirect := OptionOr(options, "redirect", Bool(true));
        SubmitSignInOrdering(env, replies, store, id, providerType, options, authorizationParams, callbackUrl, redirect);
        WellOrderedAppend([FetchProviders], chosen.trace);
        RefreshesAppend([FetchProviders], chosen.trace);
      }
    }
  }

  /**
   * `onResponse` opens with the write of `data`, never POSTs, and calls `onUnauthenticated`
   * only right after writing `null`; the built-in handler's navigation comes last.
   */
  lemma SessionResponseOrdering(env: Env, replies: Replies, store: Store, options: SessionOptions,
                                callbackUrl: Value, payload: Value)
    ensures var run := SessionResponse(env, replies, store, options, callbackUrl, payload);
            && |run.trace| > 0 && run.trace[0].WriteData?
            && WellOrdered(run.trace) && NoPost(run.trace)
  {
    var run := SessionResponse(env, replies, store, options, callbackUrl, payload);
    var written := store.(data := StoredSession(payload), loading := false);
    if Truthy(options.required) && StatusOf(written) == Unauthenticated && options.onUnauthenticated.DefaultSignIn? {
      var fallback := SignInRun(env, replies, written, None, map["callbackUrl" := callbackUrl], Undefined);
      DefaultHandler(env, replies, written, callbackUrl);
      SignInOrdering(env, replies, written, None, map["callbackUrl" := callbackUrl], Undefined);
      var head := [WriteData(None), CallOnUnauthenticated];
      assert run.trace == head + fallback.trace;
      assert NoPost(fallback.trace);
      HandlerHeadWellOrdered();
      WellOrderedAppend(head, fallback.trace);
      NoPostAppend(head, fallback.trace);
    }
  }

  /**
   * Every `getSession`, whatever the inputs and options: it fetches the session, never POSTs,
   * calls `onUnauthenticated` only right after writing `null`, and navigates (through the
   * built-in handler) only as its last effect.
   */
  lemma GetSessionOrdering(env: Env, replies: Replies, store: Store, options: SessionOptions)
    ensures var run := GetSessionRun(env, replies, store, options);
            && WellOrdered(run.trace) && NoPost(run.trace) && Refreshes(run.trace)
  {
    var run := GetSessionRun(env, replies, store, options);
    assert run.trace[0].FetchSession?;
    if replies.session.Delivered? {
      var payload := replies.session.payload;
      var callbackUrl := Or(options.callbackUrl, Str(env.requestUrl));
      var requested := store.(lastRefreshedAt := Some(env.now));
      var responded := SessionResponse(env, replies, requested, options, callbackUrl, payload);
      var request := [run.trace[0]];
      assert run.trace == request + responded.trace;
      SessionResponseOrdering(env, replies, requested, options, callbackUrl, payload);
      WellOrderedAppend(request, responded.trace);
      NoPostAppend(request, responded.trace);
    }
  }

  /** What sign-out does after its POST is well ordered, and touches the store only by refreshing the session. */
  lemma PostSignOutOrdering(env: Env, replies: Replies, store: Store, callbackUrl: Value, redirect: Value,
                            csrfToken: Value)
    ensures var run := PostSignOut(env, replies, store, callbackUrl, redirect, csrfToken);
            var rest := run.trace[1..];
            && |run.trace| > 0
            && run.trace[0] == Post("signout", Undefined, Obj(SignOutBody(csrfToken, callbackUrl, env.requestUrl)))
            && WellOrdered(rest) && NoPost(rest)
            && (|rest| > 0 ==> !rest[0].CallOnUnauthenticated?)
            && (!Refreshes(rest) ==> run.store == store)
  {
    DefaultRefresh(env, replies, store);
  }

  /**
   * Every sign-out, whatever the inputs: the CSRF fetch comes first and precedes the POST,
   * a navigation ends the flow, and the store changes only through a session fetch.
   */
  lemma SignOutOrdering(env: Env, replies: Replies, store: Store, options: map<string, Value>)
    ensures var run := SignOutRun(env, replies, store, options);
            && |run.trace| > 0 && run.trace[0].FetchCsrf?
            && WellOrdered(run.trace)
            && (!Refreshes(run.trace) ==> run.store == store)
  {
    var run := SignOutRun(env, replies, store, options);
    match CsrfToken(replies.csrf)
    case Err(_) =>
    case Ok(token) =>
      if Truthy(token) {
        var callbackUrl := OptionOr(options, "callbackUrl", Str(env.requestUrl));
        var redirect := OptionOr(options, "redirect", Bool(true));
        var posted := PostSignOut(env, replies, store, callbackUrl, redirect, token);
        PostSignOutOrdering(env, replies, store, callbackUrl, redirect, token);
        var rest := posted.trace[1..];
        var sent := [FetchCsrf(ForwardedHeaders(env.cookie)), posted.trace[0]];
        assert posted.trace == [posted.trace[0]] + rest;
        assert run.trace == sent + rest;
        SentWellOrdered(ForwardedHeaders(env.cookie), "signout", Undefined,
                        SignOutBody(token, callbackUrl, env.requestUrl));
        WellOrderedAppend(sent, rest);
        RefreshesAppend(sent, rest);
      }
  }

  // ----- the token each POST sends -----

  lemma {:induction false} PostsSendAppend(a: seq<Event>, b: seq<Event>, token: Value)
    requires PostsSend(a, token) && NoPost(b)
    ensures PostsSend(a + b, token)
  {
    forall i | 0 <= i < |a + b|
      ensures (a + b)[i].Post? ==> (a + b)[i].body.Obj? && "csrfToken" in (a + b)[i].body.fields
                                   && (a + b)[i].body.fields["csrfToken"] == token
    {
      if i < |a| {
        assert (a + b)[i] == a[i];
      } else {
        assert (a + b)[i] == b[i - |a|];
      }
    }
  }

  /**
   * Sign-in POSTs only the `csrfToken` it fetched (which may be `undefined`), and
   * POSTs nothing when the token fetch fails or answers `null`.
   */
  lemma SignInSendsToken(env: Env, replies: Replies, store: Store, provider: Option<string>,
                         options: map<string, Value>, authorizationParams: Value)
    ensures var run := SignInRun(env, replies, store, provider, options, authorizationParams);
            && (CsrfToken(replies.csrf).Ok? ==> PostsSend(run.trace, CsrfToken(replies.csrf).value))
            && (CsrfToken(replies.csrf).Err? ==> NoPost(run.trace))
  {
    var run := SignInRun(env, replies, store, provider, options, authorizationParams);
    if replies.providers.Delivered? && !Truthy(replies.providers.payload) {
      SignInWithoutProviders(env, replies, store, provider, options, authorizationParams);
    } else if replies.providers.Delivered? {
      var registry := replies.providers.payload;
      if provider.None? || provider.value == "" || !Truthy(Member(registry, provider.value)) {
        SignInWithoutKnownProvider(env, replies, store, provider, options, authorizationParams);
      } else if CsrfToken(replies.csrf).Err? {
        SignInWithoutCsrf(env, replies, store, provider.value, options, authorizationParams);
      } else {
        PostedTokenIsFetched(env, replies, store, provider.value, options, authorizationParams);
      }
    }
  }

  /** The sign-in POST's `csrfToken` is the fetched one, and nothing after it POSTs. */
  lemma PostedTokenIsFetched(env: Env, replies: Replies, store: Store, id: string,
                             options: map<string, Value>, authorizationParams: Value)
    requires replies.providers.Delivered? && Truthy(replies.providers.payload)
    requires id != "" && Truthy(Member(replies.providers.payload, id))
    requires replies.csrf.Delivered? && !Nullish(replies.csrf.payload)
    ensures PostsSend(SignInRun(env, replies, store, Some(id), options, authorizationParams).trace,
                      Member(replies.csrf.payload, "csrfToken"))
  {
    var providerType := Member(Member(replies.providers.payload, id), "type");
    var callbackUrl := OptionOr(options, "callbackUrl", Str(env.requestUrl));
    var redirect := OptionOr(options, "redirect", Bool(true));
    var token := Member(replies.csrf.payload, "csrfToken");
    var answered := AnswerSignIn(env, replies, store, providerType, Response(replies.post), callbackUrl, redirect);
    var sent := [FetchProviders, FetchCsrf(ForwardedHeaders(env.cookie)),
                 Post(Action(providerType) + "/" + id, authorizationParams, Obj(SignInBody(options, token, callbackUrl)))];
    SignInThroughPost(env, replies, store, id, options, authorizationParams);
    AnswerSignInOrdering(env, replies, store, providerType, Response(replies.post), callbackUrl, redirect);
    assert sent[2].body.fields["csrfToken"] == token;
    PostsSendAppend(sent, answered.trace, token);
  }

  /**
   * Sign-out POSTs only the `csrfToken` it fetched, and only when that token is truthy;
   * otherwise it POSTs nothing.
   */
  lemma SignOutSendsToken(env: Env, replies: Replies, store: Store, options: map<string, Value>)
    ensures var run := SignOutRun(env, replies, store, options);
            && (CsrfToken(replies.csrf).Ok? ==> PostsSend(run.trace, CsrfToken(replies.csrf).value))
            && (CsrfToken(replies.csrf).Err? || !Truthy(CsrfToken(replies.csrf).value) ==> NoPost(run.trace))
  {
    var run := SignOutRun(env, replies, store, options);
    match CsrfToken(replies.csrf)
    case Err(_) =>
    case Ok(token) =>
      if Truthy(token) {
        var callbackUrl := OptionOr(options, "callbackUrl", Str(env.requestUrl));
        var redirect := OptionOr(options, "redirect", Bool(true));
        var posted := PostSignOut(env, replies, store, callbackUrl, redirect, token);
        PostSignOutOrdering(env, replies, store, callbackUrl, redirect, token);
        var rest := posted.trace[1..];
        var sent := [FetchCsrf(ForwardedHeaders(env.cookie)), posted.trace[0]];
        assert posted.trace == [posted.trace[0]] + rest;
        assert run.trace == sent + rest;
        PostsSendAppend(sent, rest, token);
      }
  }
}

=== FILE: protocol.dfy ===
/**
 * The session lifecycle of the `useSession` composable as pure functions.
 *
 * Every flow (sign-in, session fetch, sign-out) is given its inputs
 * explicitly: the foreign helpers and ambient values as an `Env`, the answer
 * of each transport request as a `Reply`, and the store it starts from. It
 * yields a `Run`: the effects it performs, in order, what the caller's promise
 * settles to, and the store afterwards. The class in module UseSession is
 * proved to perform exactly these runs.
 */
module SessionProtocol {
  import opened JsValues

  /** An abstract clock reading (`new Date()`). */
  type Time = nat

  /** `new URL(v).searchParams.get("error")`: the constructor throws on an invalid URL. */
  datatype ParsedUrl = Invalid | Parsed(error: Option<string>)

  /** Collaborators whose code is not part of this model. */
  datatype Env = Env(
    requestUrl: string,               // getRequestURL()
    apiUrl: string -> string,         // joinPathToApiURL(path)
    callbackQuery: Value -> string,   // String(new URLSearchParams({ callbackUrl }))
    parseUrl: Value -> ParsedUrl,     // new URL(v).searchParams.get("error")
    cookie: Option<string>,           // useRequestHeaders(["cookie"]).cookie
    now: Time)                        // new Date()

  /** How one transport request settles: a payload, or a rejection carrying `error.data`. */
  datatype Reply = Delivered(payload: Value) | Failed(data: Value)

  /** The answers of the endpoints a flow may call (each is called at most once per flow). */
  datatype Replies = Replies(providers: Reply, csrf: Reply, post: Reply, session: Reply)

  /** The `onUnauthenticated` callback: the built-in one (`signIn(undefined, { callbackUrl })`) or the caller's. */
  datatype Handler = DefaultSignIn | Custom

  /** `getSession`'s options after `defu` has filled in the defaults. */
  datatype SessionOptions = SessionOptions(required: Value, callbackUrl: Value, onUnauthenticated: Handler)

  /** `getSession()` called without options. */
  const DefaultSessionOptions := SessionOptions(Undefined, Undefined, DefaultSignIn)

  datatype SessionStatus = Unauthenticated | Loading | Authenticated

  /** The shared session cells; `data == None` is `null`. */
  datatype Store = Store(data: Option<Value>, loading: bool, lastRefreshedAt: Option<Time>)

  /** The observable effects of a flow, in the order they happen. */
  datatype Event =
    | FetchProviders
    | FetchCsrf(headers: map<string, string>)
    | Post(path: string, params: Value, body: Value)
    | FetchSession(query: map<string, Value>, sessionHeaders: map<string, string>)
    | WriteData(data: Option<Value>)
    | CallOnUnauthenticated
    | Navigate(href: Value)

  /** What the caller's promise settles to. */
  datatype Outcome =
    | Navigated(href: Value)                                        // the promise of `navigateTo`
    | SignedIn(error: Option<string>, status: int, ok: bool, url: Value)  // sign-in in return mode
    | Returned(payload: Value)
    | Raised(thrown: Thrown)

  datatype Run = Run(trace: seq<Event>, outcome: Outcome, store: Store)

  const SignOutCsrfMessage := "Could not fetch CSRF Token for signing out"

  /**
   * The session status as derived from the cells. How `status` is computed lives
   * in useSessionState.mjs, which is not part of this model: this definition is
   * an assumption, not something verified against that file.
   */
  function StatusOf(store: Store): SessionStatus {
    if store.loading then Loading
    else if store.data.None? then Unauthenticated
    else Authenticated
  }

  /** isNonEmptyObject (checkSessionResult.mjs is not part of this model): an object with a key. */
  predicate IsNonEmptyObject(v: Value) {
    v.Obj? && |v.fields| > 0
  }

  /** The session `data` cell after a response: the payload if it is a non-empty object, else `null`. */
  function StoredSession(payload: Value): (data: Option<Value>)
    ensures data.Some? <==> IsNonEmptyObject(payload)
    ensures data.Some? ==> data.value == payload
  {
    if IsNonEmptyObject(payload) then Some(payload) else None
  }

  /** Request headers: the ambient cookie header is forwarded exactly when it is present. */
  function ForwardedHeaders(cookie: Option<string>): (headers: map<string, string>)
    ensures "cookie" in headers <==> cookie.Some? && cookie.value != ""
    ensures "cookie" in headers ==> headers["cookie"] == cookie.value
    ensures headers.Keys <= {"cookie"}
  {
    if cookie.Some? && cookie.value != "" then map["cookie" := cookie.value] else map[]
  }

  /** The payload a transport request yields; a rejection is caught and its `error.data` used instead. */
  function Response(reply: Reply): Value {
    match reply
    case Delivered(payload) => payload
    case Failed(data) => data
  }

  /** The token `getCsrfToken` resolves to, or what it rejects with. */
  function CsrfToken(reply: Reply): (token: Result<Value, Thrown>)
    ensures token.Err? <==> reply.Failed? || Nullish(reply.payload)
    ensures reply.Failed? ==> token == Err(FetchError(reply.data))
    ensures reply.Delivered? && Nullish(reply.payload) ==> token == Err(TypeError)
    ensures token.Ok? ==> token.value == Member(reply.payload, "csrfToken")
  {
    match reply
    case Failed(data) => Err(FetchError(data))
    case Delivered(response) => Prop(response, "csrfToken")
  }

  /** A destructured option with a default: the default replaces only `undefined`. */
  function OptionOr(options: map<string, Value>, key: string, default: Value): Value {
    if key in options && !options[key].Undefined? then options[key] else default
  }

  /** The first path segment of the sign-in POST. */
  function Action(providerType: Value): (action: string)
    ensures action == "callback" <==> providerType == Str("credentials")
    ensures action == "signin" <==> providerType != Str("credentials")
  {
    if providerType == Str("credentials") then "callback" else "signin"
  }

  /** Providers that can answer a sign-in without leaving the page. */
  predicate SupportsReturn(providerType: Value) {
    providerType == Str("credentials") || providerType == Str("email")
  }

  /** Whether sign-in ends by navigating rather than by returning a result. */
  predicate Redirects(redirect: Value, providerType: Value) {
    Truthy(redirect) || !SupportsReturn(providerType)
  }

  /** The provider-selection page, with `callbackUrl` as its query. */
  function ProviderPage(env: Env, callbackUrl: Value): string {
    env.apiUrl("signin") + "?" + env.callbackQuery(callbackUrl)
  }

  /** The sign-in POST body: the caller's options, overridden by the three protocol keys. */
  function SignInBody(options: map<string, Value>, csrfToken: Value, callbackUrl: Value): (body: map<string, Value>)
    ensures body.Keys == options.Keys + {"csrfToken", "callbackUrl", "json"}
    ensures body["csrfToken"] == csrfToken && body["callbackUrl"] == callbackUrl && body["json"] == Bool(true)
    ensures forall key :: key in options && key !in {"csrfToken", "callbackUrl", "json"} ==> body[key] == options[key]
  {
    options + map["csrfToken" := csrfToken, "callbackUrl" := callbackUrl, "json" := Bool(true)]
  }

  /** The sign-out POST body. */
  function SignOutBody(csrfToken: Value, callbackUrl: Value, fallback: string): map<string, Value> {
    map["csrfToken" := csrfToken, "callbackUrl" := Or(callbackUrl, Str(fallback)), "json" := Str("true")]
  }

  /** The record sign-in returns in return mode; a truthy `error` hides the url. */
  function SignInResult(error: Option<string>, url: Value): Outcome {
    SignedIn(error, 200, true, if error.Some? && error.value != "" then Null else url)
  }

  // Termination. The sign-in steps rank 7 (SignInRun) down to 3 (AnswerSignIn), each below
  // the step that calls it. Return mode refreshes the session with the default options, whose
  // HandlerDepth is 0, so that refresh ranks at 2 and its response at 1. The built-in
  // `onUnauthenticated` starts a whole sign-in inside `getSession`, so a required `getSession`
  // with that handler ranks at HandlerDepth + 2 = 9, above SignInRun's 7.

  /** `signIn(provider, options, authorizationParams)` */
  function SignInRun(env: Env, replies: Replies, store: Store, provider: Option<string>,
                     options: map<string, Value>, authorizationParams: Value): Run
    decreases 7
  {
    match replies.providers
    case Failed(e) => Run([FetchProviders], Raised(FetchError(e)), store)
    case Delivered(registry) =>
      if !Truthy(registry) then
        var errorUrl := Str(env.apiUrl("error"));
        Run([FetchProviders, Navigate(errorUrl)], Navigated(errorUrl), store)
      else
        var chosen := ChooseProvider(env, replies, store, registry, provider, options, authorizationParams);
        Run([FetchProviders] + chosen.trace, chosen.outcome, chosen.store)
  }

  /** `signIn` once a provider registry is configured: pick the provider or send the user to choose one. */
  function ChooseProvider(env: Env, replies: Replies, store: Store, registry: Value, provider: Option<string>,
                          options: map<string, Value>, authorizationParams: Value): Run
    decreases 6
  {
    var callbackUrl := OptionOr(options, "callbackUrl", Str(env.requestUrl));
    var redirect := OptionOr(options, "redirect", Bool(true));
    var page := Str(ProviderPage(env, callbackUrl));
    if provider.None? || provider.value == "" || !Truthy(Member(registry, provider.value)) then
      Run([Navigate(page)], Navigated(page), store)
    else
      var providerType := Member(Member(registry, provider.value), "type");
      SubmitSignIn(env, replies, store, provider.value, providerType, options,
                   authorizationParams, callbackUrl, redirect)
  }

  /** `signIn` with a selected provider: fetch a CSRF token and POST the sign-in request. */
  function SubmitSignIn(env: Env, replies: Replies, store: Store, id: string, providerType: Value,
                        options: map<string, Value>, authorizationParams: Value,
                        callbackUrl: Value, redirect: Value): Run
    decreases 5
  {
    var fetched := FetchCsrf(ForwardedHeaders(env.cookie));
    match CsrfToken(replies.csrf)
    case Err(thrown) => Run([fetched], Raised(thrown), store)
    case Ok(csrfToken) =>
      var posted := PostSignIn(env, replies, store, id, providerType, options, authorizationParams,
                               callbackUrl, redirect, csrfToken);
      Run([fetched] + posted.trace, posted.outcome, posted.store)
  }

  /** `signIn` once the CSRF token is known: POST the sign-in request and handle the answer. */
  function PostSignIn(env: Env, replies: Replies, store: Store, id: string, providerType: Value,
                      options: map<string, Value>, authorizationParams: Value,
                      callbackUrl: Value, redirect: Value, csrfToken: Value): Run
    decreases 4
  {
    var body := Obj(SignInBody(options, csrfToken, callbackUrl));
    var post := Post(Action(providerType) + "/" + id, authorizationParams, body);
    var answered := AnswerSignIn(env, replies, store, providerType, Response(replies.post), callbackUrl, redirect);
    Run([post] + answered.trace, answered.outcome, answered.store)
  }

  /** `signIn` after the POST: navigate, or refresh the session and return a result. */
  function AnswerSignIn(env: Env, replies: Replies, store: Store, providerType: Value, data: Value,
                        callbackUrl: Value, redirect: Value): Run
    decreases 3
  {
    match Prop(data, "url")
    case Err(thrown) => Run([], Raised(thrown), store)
    case Ok(url) =>
      if Redirects(redirect, providerType) then
        var href := Coalesce(url, callbackUrl);
        Run([Navigate(href)], Navigated(href), store)
      else
        match env.parseUrl(url)
        case Invalid => Run([], Raised(TypeError), store)
        case Parsed(error) =>
          var refresh := GetSessionRun(env, replies, store, DefaultSessionOptions);
          Run(refresh.trace, if refresh.outcome.Raised? then refresh.outcome else SignInResult(error, url), refresh.store)
  }

  /** The room `getSession` leaves for the sign-in its default `onUnauthenticated` may start. */
  function HandlerDepth(options: SessionOptions): nat {
    if Truthy(options.required) && options.onUnauthenticated.DefaultSignIn? then 7 else 0
  }

  /** `getSession(options)`: the `onRequest` hook, then `onResponse` or one of the error hooks. */
  function GetSessionRun(env: Env, replies: Replies, store: Store, options: SessionOptions): Run
    decreases HandlerDepth(options) + 2
  {
    var callbackUrl := Or(options.callbackUrl, Str(env.requestUrl));
    var request := FetchSession(map["callbackUrl" := callbackUrl], ForwardedHeaders(env.cookie));
    var requested := store.(lastRefreshedAt := Some(env.now));
    match replies.session
    case Failed(e) => Run([request], Raised(FetchError(e)), requested.(loading := false))
    case Delivered(payload) =>
      var responded := SessionResponse(env, replies, requested, options, callbackUrl, payload);
      Run([request] + responded.trace, responded.outcome, responded.store)
  }

  /** The `onResponse` hook of `getSession`. */
  function SessionResponse(env: Env, replies: Replies, store: Store, options: SessionOptions,
                           callbackUrl: Value, payload: Value): Run
    decreases HandlerDepth(options) + 1
  {
    var data := StoredSession(payload);
    var written := store.(data := data, loading := false);
    if Truthy(options.required) && StatusOf(written) == Unauthenticated then
      match options.onUnauthenticated
      case Custom => Run([WriteData(data), CallOnUnauthenticated], Returned(payload), written)
      case DefaultSignIn =>
        var fallback := SignInRun(env, replies, written, None, map["callbackUrl" := callbackUrl], Undefined);
        Run([WriteData(data), CallOnUnauthenticated] + fallback.trace,
            if fallback.outcome.Raised? then fallback.outcome else Returned(payload),
            fallback.store)
    else
      Run([WriteData(data)], Returned(payload), written)
  }

  /** `signOut(options)` */
  function SignOutRun(env: Env, replies: Replies, store: Store, options: map<string, Value>): Run {
    var callbackUrl := OptionOr(options, "callbackUrl", Str(env.requestUrl));
    var redirect := OptionOr(options, "redirect", Bool(true));
    var fetched := FetchCsrf(ForwardedHeaders(env.cookie));
    match CsrfToken(replies.csrf)
    case Err(thrown) => Run([fetched], Raised(thrown), store)
    case Ok(csrfToken) =>
      if !Truthy(csrfToken) then
        Run([fetched], Raised(HttpError(400, SignOutCsrfMessage)), store)
      else
        var posted := PostSignOut(env, replies, store, callbackUrl, redirect, csrfToken);
        Run([fetched] + posted.trace, posted.outcome, posted.store)
  }

  /** `signOut` once a CSRF token is known: POST the sign-out request, then navigate or refresh the session. */
  function PostSignOut(env: Env, replies: Replies, store: Store, callbackUrl: Value, redirect: Value,
                       csrfToken: Value): Run
  {
    var post := Post("signout", Undefined, Obj(SignOutBody(csrfToken, callbackUrl, env.requestUrl)));
    var data := Response(replies.post);
    if Truthy(redirect) then
      match Prop(data, "url")
      case Err(thrown) => Run([post], Raised(thrown), store)
      case Ok(url) =>
        var href := Coalesce(url, callbackUrl);
        Run([post, Navigate(href)], Navigated(href), store)
    else
      var refresh := GetSessionRun(env, replies, store, DefaultSessionOptions);
      Run([post] + refresh.trace,
          if refresh.outcome.Raised? then refresh.outcome else Returned(data),
          refresh.store)
  }
}
